=== FILE: README.md ===
# SendVerificationEmail, modelled in Dafny

A model of the Google Cloud Function `SendVerificationEmail`. It is triggered
by a Pub/Sub message that carries a user's email address and a verification
token. It mails the user a verification link through SendGrid. Only after the
send succeeds does it insert a row for the token into PostgreSQL.

The repository has two variants of the handler, and each is its own module:

- `Current` models `function.go`. It sends a SendGrid dynamic-template
  message whose `verificationLink` is `VERIFICATION_URL?token=<token>`. It
  stores an expiry time of the send time plus 120 seconds.
- `Legacy` models `main.go`. It sends inline plain-text and HTML bodies that
  link to the fixed address `https://rajadarsh.me/verify?token=<token>`. It
  stores the send time itself.

The two files share code, and the shared parts are defined once:

- `Base64` is Go's `base64.StdEncoding.DecodeString`, following section 4 of
  RFC 4648 as Go applies it. Padding is required. Carriage returns and line
  feeds are skipped wherever they occur. Unused low bits of a padded last
  quantum are ignored, because the encoding is not in strict mode. The module
  also has the matching encoder and a decoder-free description of the inputs
  the decoder accepts (`WellFormed`).
- `Event` is the payload step. The payload is base64-decoded when it is valid
  base64 and used raw otherwise. The result is then given to the JSON decoder.
  `json.Unmarshal` is a parser parameter of type
  `seq<byte> -> Option<Message>`. It is otherwise left uninterpreted.
- `ConnInfo` is `getDatabaseURL`, plus a reader for keyword/value connection
  strings that is used to state what the connection string says when every
  value is non-empty and holds no white space, quote or backslash.
- `Trace` is the orchestration vocabulary. An invocation returns a `Run`,
  which holds the error it returns (`None` for nil) and a trace of the calls
  it made to the outside world:
  - `Open(dsn, ok)` for `sql.Open`;
  - `Send(to, mail, ok)` for the mail client;
  - `Insert(email, token, at, ok)` for `db.Exec`;
  - `Close` for the deferred `db.Close`.

  The outcome of each call and the clock are fields of a `World` parameter.
  `WellOrdered` is the ordering contract both variants meet:
  - every insert follows a successful send to the same address;
  - there is at most one insert;
  - the database is opened first, and closed last exactly when the open
    succeeded;
  - after a failed open, no other call is made.

  `Outline` is an independent statement of which calls `sendEmail` makes,
  and with which outcomes, for a given `World`.

Neither handler validates its inputs:
- Neither checks that the email, the token or `VERIFICATION_URL` is
  non-empty. A missing JSON field decodes to the empty string and is mailed as
  it is, and an empty base URL gives the link `?token=<token>`. So the model
  has no non-emptiness precondition.
- Neither checks the HTTP status of the mail provider's response. The send
  outcome `sendOk` means only that the client's `Send` returned no error. A
  response the provider rejects, such as a 401 for a missing API key, still
  counts as a successful send, and the row is inserted after it.

## Model

| member | source | states |
|---|---|---|
| Base64.Strip | function.go:64 | The decoder ignores line breaks: a single line break is dropped, a single other byte is kept, no line break is left, and nothing else is removed |
| Base64.StripConcat | function.go:64 | Line breaks are removed piece by piece, so with the single-byte case every other byte is kept, in order and as often as it occurs |
| Base64.Letter | function.go:64 | The encoding table is the inverse of the decoding table, so every sextet has a letter that decodes back to it |
| Base64.DecodeQuanta | function.go:64 | On success the line-break-free input is whole 4-letter quanta of alphabet letters and pads, and the output has 3 bytes per quantum, less up to 2 for padding |
| Base64.DecodeQuantaSucceedsIff | function.go:64 | The decoder accepts a line-break-free input exactly when it is whole quanta of letters with at most two trailing pads |
| Base64.DecodeString | function.go:64 | Returns no error exactly when the input, with line breaks removed, is well formed |
| Base64.ForeignByteDefeatsDecoding | function.go:64-67 | A byte outside the alphabet that is neither `=` nor a line break, anywhere in the payload, makes decoding fail |
| Base64.DecodeEncode | function.go:64 | Decoding the standard encoding of any byte string gives that byte string back |
| Event.Unwrap | function.go:64-70 | The JSON decoder gets the base64 decoding of the payload when the payload is valid base64, and otherwise the payload unchanged |
| Event.Decode | function.go:64-77 | The JSON decoder parses the base64 decoding of the payload when the payload is valid base64, and the raw payload otherwise; a payload containing `{` is always parsed raw |
| Event.EncodedPayloadIsUnwrapped | function.go:64-69 | A base64-encoded payload reaches the JSON decoder exactly as it was before encoding |
| Event.RawJsonIsKept | function.go:64-67 | A payload containing `{` is never valid base64, so it takes the raw path unchanged |
| Event.WrappedAndRawAgree | function.go:64-73 | A JSON object yields the same request whether it is published raw or base64-encoded |
| Event.LetterOnlyPayloadIsDecoded | function.go:64-69 | A raw payload made only of base64 letters in whole quanta (such as `null`) is decoded instead of taken raw, and shrinks |
| ConnInfo.DatabaseURL | function.go:40-48 | The connection string has a fixed length beyond its four values, starts with `host=` and ends with the password |
| ConnInfo.DatabaseURLFields | function.go:40-48 | Read back, the connection string is host, user, dbname, `sslmode=disable`, password, in that order, with the configured values (proved when no value has a space; what an empty value means is under "Left out") |
| ConnInfo.UnquotedValuesCollide | function.go:47 | Values are inserted unquoted, so two configurations that are proved different produce the same connection string |
| Current.VerificationURL | function.go:131-138 | The link is the base URL, then `?token=`, then the token: the base is a prefix, the token a suffix, and nothing is added or escaped |
| Current.TokenOfVerificationURL | function.go:131-138 | The token can be read back out of the link built for it |
| Current.VerificationURLOfToken | function.go:131-138 | Every link with the base URL is the link for the token it carries, so different tokens get different links |
| Current.Mail | function.go:90-102 | The message goes to the given address from the fixed sender, uses the configured template, carries a link for the token and the fixed `mailto:support@rajadarsh.me` contact link |
| Current.SendEmail | function.go:82-124 | The database is opened first. An open failure sends and inserts nothing. The mail is sent on an open connection. A send failure inserts nothing. After a successful send the third and last-but-one call is the one insert, of (email, token, send time + 120 s). The calls and their outcomes are exactly those of `Trace.Outline` for the world. Nil is returned exactly when open, send and insert all succeed. The connection is closed on every return after a successful open |
| Current.SendVerificationEmail | function.go:56-80 | A metadata failure or a JSON failure returns that error with an empty trace. Nil is returned exactly when every step succeeds. Every trace is well ordered, and any row inserted holds the decoded email and token with an expiry 120 s after the send |
| Current.DecodedRequestIsSent | function.go:79-101 | With an open connection, the message goes to the decoded address with the link for the decoded token and the fixed contact link, with no emptiness check |
| Current.RecordFollowsSend | function.go:105-123 | A send failure returns the send error and leaves no insert. A successful send leads to exactly one insert of the decoded email and token expiring 120 s later, and the result is nil exactly when that insert succeeds |
| Current.SentButUnrecorded | function.go:114-119 | An insert failure returns an error although the trace already holds a successful send |
| Current.SendEmailSucceeds | function.go:82-124 | When every call succeeds the trace is exactly open, send, insert (expiring 120 s after the send), close, and the result is nil |
| Current.EncodedEventEndToEnd | function.go:56-124 | A base64-encoded JSON request is mailed to its address with the link for its token, recorded with a 120 s expiry, and the invocation succeeds |
| Current.RejectedPayloadTouchesNothing | function.go:64-77 | A payload the JSON decoder rejects, raw or base64-encoded, returns a decode error before any open, send or insert |
| Legacy.VerificationURL | main.go:112-114 | The link carries the token behind the fixed endpoint `https://rajadarsh.me/verify`, and the token reads back out of it |
| Legacy.FixedBaseURL | main.go:112-114 | The older link is the current link with the base URL fixed to `https://rajadarsh.me/verify` |
| Legacy.PlainText | main.go:89 | The plain-text body is the lead sentence followed by the link |
| Legacy.Html | main.go:90 | The HTML body is exactly the lead sentence, `<a href="`, the link, `">`, the link again as the anchor text, and `</a>`, each piece at its position and nothing more |
| Legacy.HrefCarriesToken | main.go:90 | The anchor target read out of the HTML body is the link for the token, when the token has no `"` |
| Legacy.Mail | main.go:86-91 | The message goes to the given address from the fixed sender with the fixed subject, and both bodies carry the link |
| Legacy.SendEmail | main.go:77-109 | The same ordering and error contract as the current variant, with the same calls and outcomes (`Trace.Outline`), but the single insert after a successful send is stamped with the send time itself |
| Legacy.SendVerificationEmail | main.go:50-74 | A metadata or JSON failure returns that error before any open, send or insert. Nil is returned exactly when every step succeeds. Every trace is well ordered, and any row inserted holds the decoded email and token stamped with the send time |
| Legacy.ConnectionStringFields | main.go:31-47 | The string given to `sql.Open` reads back as host, user, dbname, `sslmode=disable`, password, in that order |
| Legacy.SameOrchestrationAsCurrent | main.go:50-109 | Both variants make the same calls, in the same order, with the same outcomes, and return the same error |
| Legacy.RecordsSendTime | main.go:98-108 | With every call succeeding, the older row stores the send time and the current row stores the send time + 120 s |

## Left out

- Logging (logrus and `log`, `init`, the formatter and output setup): it is observability only and does not affect control flow.
- `metadata.FromContext`: a platform call, modelled only as whether it succeeds. The resource name it yields is only logged.
- `os.Getenv`: the environment values are explicit parameters (`ConnInfo.DbConfig`, `Current.Env`).
- `SENDGRID_API_KEY`: it only configures the mail client. `sendOk` is whether the client's `Send` returned an error; the HTTP status of the response is only logged.
- A row can be inserted after a send that the provider rejected with an HTTP error status, such as a 401 for a missing key. Both handlers branch only on the error `Send` returns (function.go:105-106, main.go:94-95), and the model keeps only that outcome.
- The SendGrid client, its personalization and template rendering, and the HTTP status and body of its response: foreign library calls. The model keeps only the message fields the code sets and whether the send succeeded.
- `database/sql`, the `lib/pq` driver and the SQL text, including the table and column names: the model keeps only the `Open`, `Insert` and `Close` effects and their arguments. `sql.Open` does not contact the server; its success is a parameter like the rest.
- `time.Now` and `time.Time.Add`: the clock is an integer count of nanoseconds read after the send. The monotonic reading and the saturation of `Add` on overflow are not modelled.
- `json.Unmarshal` and the JSON grammar of RFC 8259: a parser parameter. The model does not say which byte strings it accepts.
- The error values returned: the model records which step failed (`Trace.Error`), not the error value or its text, nor the offset carried by Go's `CorruptInputError`.
- Platform redelivery, concurrent invocations and deduplication: the code has none. One invocation is modelled.
- ConnInfo.DatabaseURLFields: stated only for values without spaces. The reader splits on the space character only and does not model the quoting and backslash escapes of the libpq keyword/value syntax, which also ends a value at any other white space (tab, newline, carriage return, form feed, vertical tab). So a value holding such a character, a quote or a backslash reads back whole here but not in libpq. `ConnInfo.UnquotedValuesCollide` shows why values with spaces cannot be read back.
- ConnInfo.DatabaseURLFields: the reader gives an empty value back as the empty string, but the libpq keyword/value syntax skips blanks after `=` and takes an empty value only when it is written in single quotes. With an empty value (an unset `DB_HOST`, say, since `os.Getenv` returns ""), `host= user=u` makes `user=u` the host, so the next field is swallowed. The readback is therefore what libpq reads only when every value is non-empty.
- Legacy.ConnectionStringFields: stated only for values without spaces, for the same reason as `ConnInfo.DatabaseURLFields`: quoting, backslash escapes and white space other than the space are not read as libpq reads them. An empty value likewise swallows the field after it, as described for `ConnInfo.DatabaseURLFields`.
- Legacy.HrefCarriesToken: stated only for tokens without `"`. The token is inserted into the HTML attribute unescaped, so a `"` would end the anchor target early.

=== FILE: base64.dfy ===
/**
 The standard base64 encoding of section 4 of RFC 4648, as Go's
 `base64.StdEncoding.DecodeString` accepts it: the 64-letter alphabet with
 `+` and `/`, padding with `=` required, carriage returns and line feeds
 ignored wherever they occur, and the unused low bits of a padded final
 quantum ignored (the encoding is not in strict mode).
 */
module Base64 {
  import opened Common

  const Pad: byte := 61             // '='
  const LineFeed: byte := 10        // '\n'
  const CarriageReturn: byte := 13  // '\r'

  /** A six-bit group: the value one alphabet letter stands for. */
  type sextet = x: int | 0 <= x < 64

  predicate IsAlphabet(c: byte) {
    (65 <= c <= 90) || (97 <= c <= 122) || (48 <= c <= 57) || c == 43 || c == 47
  }

  predicate IsNewline(c: byte) {
    c == LineFeed || c == CarriageReturn
  }

  /** The decoding table: 'A'..'Z', 'a'..'z', '0'..'9', '+', '/' stand for 0..63. */
  function Value(c: byte): sextet
    requires IsAlphabet(c)
  {
    if 65 <= c <= 90 then c - 65
    else if 97 <= c <= 122 then c - 71
    else if 48 <= c <= 57 then c + 4
    else if c == 43 then 62
    else 63
  }

  /** The encoding table, the inverse of `Value`. */
  function Letter(v: sextet): (c: byte)
    ensures IsAlphabet(c) && Value(c) == v
  {
    if v < 26 then v + 65
    else if v < 52 then v + 71
    else if v < 62 then v - 4
    else if v == 62 then 43
    else 47
  }

  /** `Letter` undoes `Value`: the two tables are mutually inverse. */
  lemma LetterOfValue(c: byte)
    requires IsAlphabet(c)
    ensures Letter(Value(c)) == c
  {
  }

  /** The input with every line break removed; Go skips them while decoding. */
  function Strip(s: seq<byte>): (r: seq<byte>)
    ensures |r| <= |s|
    ensures forall i :: 0 <= i < |r| ==> !IsNewline(r[i])
    ensures forall c :: c in s && !IsNewline(c) ==> c in r
    ensures forall c :: c in r ==> c in s
    ensures (forall i :: 0 <= i < |s| ==> !IsNewline(s[i])) ==> r == s
    ensures |s| == 1 ==> r == (if IsNewline(s[0]) then [] else s)
  {
    if |s| == 0 then []
    else (if IsNewline(s[0]) then [] else [s[0]]) + Strip(s[1..])
  }

  /** One step of `Strip`: the first byte, unless it is a line break, then the rest. */
  lemma StripHead(s: seq<byte>)
    requires |s| > 0
    ensures Strip(s) == (if IsNewline(s[0]) then [] else [s[0]]) + Strip(s[1..])
  {
  }

  lemma ConcatAssoc(x: seq<byte>, y: seq<byte>, z: seq<byte>)
    ensures x + (y + z) == (x + y) + z
  {
  }

  /** Removing line breaks works piecewise; with the one-byte case in
      `Strip`'s contract this says every other byte is kept, in order and
      as often as it occurs. */
  lemma {:induction false} StripConcat(a: seq<byte>, b: seq<byte>)
    ensures Strip(a + b) == Strip(a) + Strip(b)
    decreases |a|
  {
    if |a| == 0 {
      assert a + b == b;
    } else {
      var t := a[1..];
      var h: seq<byte> := if IsNewline(a[0]) then [] else [a[0]];
      assert (a + b)[0] == a[0] && (a + b)[1..] == t + b;
      StripHead(a + b);
      StripHead(a);
      StripConcat(t, b);
      ConcatAssoc(h, Strip(t), Strip(b));
    }
  }

  /** The three bytes carried by four six-bit groups (Go packs them into a
      24-bit word and takes its bytes from the top). */
  function Bytes(a: sextet, b: sextet, c: sextet, d: sextet): seq<byte>
  {
    [a * 4 + b / 16, (b % 16) * 16 + c / 4, (c % 4) * 64 + d]
  }

  /** Decodes a line-break-free input quantum by quantum; a missing group of
      a padded final quantum counts as zero, as in Go's decoder. */
  function DecodeQuanta(s: seq<byte>): (r: Option<seq<byte>>)
    ensures r.Some? ==> |s| % 4 == 0
    ensures r.Some? ==> 3 * (|s| / 4) - 2 <= |r.value| <= 3 * (|s| / 4)
    ensures r.Some? ==> forall i :: 0 <= i < |s| ==> IsAlphabet(s[i]) || s[i] == Pad
    decreases |s|
  {
    if |s| == 0 then Some([])
    else if |s| < 4 then None
    else if IsAlphabet(s[0]) && IsAlphabet(s[1]) && IsAlphabet(s[2]) && IsAlphabet(s[3]) then
      match DecodeQuanta(s[4..])
      case None => None
      case Some(rest) => Some(Bytes(Value(s[0]), Value(s[1]), Value(s[2]), Value(s[3])) + rest)
    else if |s| == 4 && IsAlphabet(s[0]) && IsAlphabet(s[1]) && s[2] == Pad && s[3] == Pad then
      Some(Bytes(Value(s[0]), Value(s[1]), 0, 0)[..1])
    else if |s| == 4 && IsAlphabet(s[0]) && IsAlphabet(s[1]) && IsAlphabet(s[2]) && s[3] == Pad then
      Some(Bytes(Value(s[0]), Value(s[1]), Value(s[2]), 0)[..2])
    else None
  }

  /** `base64.StdEncoding.DecodeString`: `None` stands for the error return. */
  function DecodeString(s: seq<byte>): (r: Option<seq<byte>>)
    ensures r.Some? <==> IsValid(s)
  {
    DecodeQuantaSucceedsIff(Strip(s));
    DecodeQuanta(Strip(s))
  }

  /** The two last letters of a non-empty encoding: two letters, a letter and
      one pad, or two pads. */
  predicate PaddedTail(x: byte, y: byte) {
    (IsAlphabet(x) && (IsAlphabet(y) || y == Pad)) || (x == Pad && y == Pad)
  }

  /** The shape of a line-break-free input Go accepts, stated without
      reference to the decoder: whole quanta, all letters except at most two
      trailing pads. */
  predicate WellFormed(s: seq<byte>) {
    && |s| % 4 == 0
    && (forall i :: 0 <= i < |s| - 2 ==> IsAlphabet(s[i]))
    && (|s| > 0 ==> PaddedTail(s[|s| - 2], s[|s| - 1]))
  }

  /** Whether `DecodeString` accepts the input. */
  predicate IsValid(s: seq<byte>) {
    WellFormed(Strip(s))
  }

  /** Past a first quantum of four letters, well-formedness is decided by the rest. */
  lemma WellFormedAfterQuantum(s: seq<byte>)
    requires |s| >= 8 && |s| % 4 == 0
    requires IsAlphabet(s[0]) && IsAlphabet(s[1]) && IsAlphabet(s[2]) && IsAlphabet(s[3])
    ensures WellFormed(s) <==> WellFormed(s[4..])
  {
  }

  /** The decoder accepts exactly the well-formed inputs. */
  lemma {:induction false} DecodeQuantaSucceedsIff(s: seq<byte>)
    ensures DecodeQuanta(s).Some? <==> WellFormed(s)
    decreases |s|
  {
    if |s| % 4 != 0 || |s| == 0 {
    } else if IsAlphabet(s[0]) && IsAlphabet(s[1]) && IsAlphabet(s[2]) && IsAlphabet(s[3]) {
      DecodeQuantaSucceedsIff(s[4..]);
      if |s| == 4 {
        assert WellFormed(s);
      } else {
        WellFormedAfterQuantum(s);
      }
    } else if |s| == 4 {
    } else {
      assert 3 < |s| - 2;
    }
  }

  /** A byte outside the alphabet that is neither `=` nor a line break makes
      decoding fail, wherever it stands. */
  lemma ForeignByteDefeatsDecoding(s: seq<byte>, c: byte)
    requires c in s
    requires !IsAlphabet(c) && c != Pad && !IsNewline(c)
    ensures DecodeString(s) == None
    ensures !IsValid(s)
  {
  }

  /** `base64.StdEncoding.EncodeToString`: whole quanta, the last one padded. */
  function Encode(b: seq<byte>): (s: seq<byte>)
    ensures |s| == 4 * ((|b| + 2) / 3)
    ensures forall i :: 0 <= i < |s| ==> IsAlphabet(s[i]) || s[i] == Pad
    decreases |b|
  {
    if |b| == 0 then []
    else if |b| == 1 then
      [Letter(b[0] / 4), Letter((b[0] % 4) * 16), Pad, Pad]
    else if |b| == 2 then
      [Letter(b[0] / 4), Letter((b[0] % 4) * 16 + b[1] / 16), Letter((b[1] % 16) * 4), Pad]
    else
      [Letter(b[0] / 4), Letter((b[0] % 4) * 16 + b[1] / 16),
       Letter((b[1] % 16) * 4 + b[2] / 64), Letter(b[2] % 64)] + Encode(b[3..])
  }

  /** The four letters that carry three bytes. */
  function Quantum(x: byte, y: byte, z: byte): (q: seq<byte>)
    ensures |q| == 4 && IsAlphabet(q[0]) && IsAlphabet(q[1]) && IsAlphabet(q[2]) && IsAlphabet(q[3])
  {
    [Letter(x / 4), Letter((x % 4) * 16 + y / 16), Letter((y % 16) * 4 + z / 64), Letter(z % 64)]
  }

  /** One full quantum round-trips. */
  lemma QuantumRoundTrip(x: byte, y: byte, z: byte)
    ensures Bytes(x / 4, (x % 4) * 16 + y / 16, (y % 16) * 4 + z / 64, z % 64) == [x, y, z]
  {
  }

  /** A final quantum carrying one byte round-trips. */
  lemma OneByteRoundTrip(x: byte)
    ensures DecodeQuanta(Encode([x])) == Some([x])
  {
    var y := (x % 4) * 16;
    assert y / 16 == x % 4;
    assert Bytes(x / 4, y, 0, 0)[..1] == [x];
  }

  /** A final quantum carrying two bytes round-trips. */
  lemma TwoBytesRoundTrip(x: byte, y: byte)
    ensures DecodeQuanta(Encode([x, y])) == Some([x, y])
  {
    var b := (x % 4) * 16 + y / 16;
    var c := (y % 16) * 4;
    assert b / 16 == x % 4 && b % 16 == y / 16;
    assert c / 4 == y % 16;
    assert Bytes(x / 4, b, c, 0)[..2] == [x, y];
  }

  /** The decoder inverts the encoder on line-break-free text. */
  lemma {:induction false} DecodeQuantaEncode(b: seq<byte>)
    ensures DecodeQuanta(Encode(b)) == Some(b)
    decreases |b|
  {
    if |b| == 0 {
    } else if |b| == 1 {
      assert b == [b[0]];
      OneByteRoundTrip(b[0]);
    } else if |b| == 2 {
      assert b == [b[0], b[1]];
      TwoBytesRoundTrip(b[0], b[1]);
    } else {
      var rest := b[3..];
      assert b == [b[0], b[1], b[2]] + rest;
      DecodeQuantaEncode(rest);
      QuantumStep(b[0], b[1], b[2], rest);
    }
  }

  /** Three bytes in front of a round-tripping tail round-trip too. */
  lemma QuantumStep(x: byte, y: byte, z: byte, rest: seq<byte>)
    requires DecodeQuanta(Encode(rest)) == Some(rest)
    ensures DecodeQuanta(Encode([x, y, z] + rest)) == Some([x, y, z] + rest)
  {
    var b := [x, y, z] + rest;
    assert b[0] == x && b[1] == y && b[2] == z && b[3..] == rest;
    assert Encode(b) == Quantum(x, y, z) + Encode(rest);
    QuantumThen(x, y, z, Encode(rest), rest);
  }

  /** A full quantum in front of decodable text decodes to its three bytes
      in front of that text's bytes. */
  lemma QuantumThen(x: byte, y: byte, z: byte, rest: seq<byte>, r: seq<byte>)
    requires DecodeQuanta(rest) == Some(r)
    ensures DecodeQuanta(Quantum(x, y, z) + rest) == Some([x, y, z] + r)
  {
    FullQuantumThen(x / 4, (x % 4) * 16 + y / 16, (y % 16) * 4 + z / 64, z % 64, rest, r);
    QuantumRoundTrip(x, y, z);
  }

  /** Four letters in front of decodable text decode to their three bytes
      in front of that text's bytes. */
  lemma FullQuantumThen(a: sextet, b: sextet, c: sextet, d: sextet, rest: seq<byte>, r: seq<byte>)
    requires DecodeQuanta(rest) == Some(r)
    ensures DecodeQuanta([Letter(a), Letter(b), Letter(c), Letter(d)] + rest) == Some(Bytes(a, b, c, d) + r)
  {
    var q := [Letter(a), Letter(b), Letter(c), Letter(d)];
    assert (q + rest)[..4] == q && (q + rest)[4..] == rest;
  }

  /** `DecodeString(EncodeToString(b)) == b` for every byte string. */
  lemma DecodeEncode(b: seq<byte>)
    ensures DecodeString(Encode(b)) == Some(b)
    ensures IsValid(Encode(b))
  {
    DecodeQuantaEncode(b);
  }
}

=== FILE: common.dfy ===
/** Small shared vocabulary: bytes and an optional value. */
module Common {

  /** A Go `byte`: the event payload is a `[]byte`. */
  type byte = x: int | 0 <= x < 256

  /** A value that may be absent (a Go `error` return collapses to `None`). */
  datatype Option<+T> = None | Some(value: T)

  /** The ASCII byte `{`, with which every JSON object begins. */
  const OpenBrace: byte := 123

  /** A string cut at the first occurrence of `sep`: the part before it
      and the part after it; `None` when `sep` does not occur. */
  function SplitAt(s: string, sep: char): (r: Option<(string, string)>)
    ensures r.Some? ==> sep !in r.value.0 && r.value.0 + [sep] + r.value.1 == s
    ensures r.None? <==> sep !in s
    decreases |s|
  {
    if |s| == 0 then None
    else if s[0] == sep then Some(("", s[1..]))
    else match SplitAt(s[1..], sep)
      case None => None
      case Some(kv) => Some(([s[0]] + kv.0, kv.1))
  }

  /** A string has one way of being written as `k + [sep] + v` with `sep`
      not in `k`. */
  lemma {:induction false} SeparatedUniquely(k: string, v: string, k': string, v': string, sep: char)
    requires sep !in k && sep !in k'
    requires k + [sep] + v == k' + [sep] + v'
    ensures k == k' && v == v'
    decreases |k|
  {
    var w := k + [sep] + v;
    if |k| == 0 {
      assert w[0] == sep;
      assert w[1..] == v && (k' + [sep] + v')[1..] == v';
    } else {
      assert w[0] == k[0] && w[1..] == k[1..] + [sep] + v;
      assert |k'| > 0;
      assert (k' + [sep] + v')[1..] == k'[1..] + [sep] + v';
      SeparatedUniquely(k[1..], v, k'[1..], v', sep);
      assert k == [k[0]] + k[1..] && k' == [k'[0]] + k'[1..];
    }
  }

  /** Cutting at the first `sep` recovers the two parts around it. */
  lemma SplitAtFirst(k: string, v: string, sep: char)
    requires sep !in k
    ensures SplitAt(k + [sep] + v, sep) == Some((k, v))
  {
    var r := SplitAt(k + [sep] + v, sep);
    assert sep in k + [sep] + v;
    SeparatedUniquely(k, v, r.value.0, r.value.1, sep);
  }
}

=== FILE: conninfo.dfy ===
/**
 The PostgreSQL keyword/value connection string built by `getDatabaseURL`,
 and a reader for such strings (keyword/value pairs separated by spaces,
 each split at its first `=`), used to state what the string says.
 */
module ConnInfo {
  import opened Common

  /** The four `DB_*` environment values, passed in explicitly. */
  datatype DbConfig = DbConfig(host: string, user: string, name: string, password: string)

  /** `sslMode` is fixed in the code, not read from the environment. */
  const SslMode: string := "disable"

  /** `getDatabaseURL`: the `fmt.Sprintf` with five `%s` verbs, each
      value inserted verbatim. */
  function DatabaseURL(c: DbConfig): (dsn: string)
    ensures |dsn| == 45 + |c.host| + |c.user| + |c.name| + |c.password|
    ensures dsn[..5] == "host=" && dsn[|dsn| - |c.password|..] == c.password
  {
    "host=" + c.host + " user=" + c.user + " dbname=" + c.name
      + " sslmode=" + SslMode + " password=" + c.password
  }

  /** The space-separated fields of a string (empty fields kept). */
  function Split(s: string): (r: seq<string>)
    ensures |r| >= 1
    decreases |s|
  {
    if |s| == 0 then [""]
    else if s[0] == ' ' then [""] + Split(s[1..])
    else var t := Split(s[1..]); [[s[0]] + t[0]] + t[1..]
  }

  /** A field read as `keyword=value`, split at its first `=`. */
  function KeyValue(f: string): Option<(string, string)>
  {
    SplitAt(f, '=')
  }

  /** The keyword/value pairs a connection string spells out, in order. */
  function Fields(s: string): seq<Option<(string, string)>>
  {
    var parts := Split(s);
    seq(|parts|, i requires 0 <= i < |parts| => KeyValue(parts[i]))
  }

  /** Splitting a field with no space yields that field alone. */
  lemma {:induction false} SplitNoSpace(a: string)
    requires ' ' !in a
    ensures Split(a) == [a]
    decreases |a|
  {
    if |a| > 0 {
      SplitNoSpace(a[1..]);
      assert [a[0]] + a[1..] == a;
    }
  }

  /** A space-free field followed by a space splits off first. */
  lemma {:induction false} SplitAfterField(a: string, b: string)
    requires ' ' !in a
    ensures Split(a + " " + b) == [a] + Split(b)
    decreases |a|
  {
    if |a| == 0 {
      assert a + " " + b == [' '] + b;
      assert (a + " " + b)[1..] == b;
    } else {
      SplitAfterField(a[1..], b);
      assert (a + " " + b)[1..] == a[1..] + " " + b;
      assert [a[0]] + a[1..] == a;
    }
  }

  /** The first `=` of `keyword=value` is the one after the keyword. */
  lemma KeyValueOfPair(k: string, v: string)
    requires '=' !in k
    ensures KeyValue(k + "=" + v) == Some((k, v))
  {
    SplitAtFirst(k, v, '=');
  }

  predicate SpaceFree(c: DbConfig) {
    ' ' !in c.host && ' ' !in c.user && ' ' !in c.name && ' ' !in c.password
  }

  /** Five space-free fields joined by single spaces split back apart. */
  lemma SplitFiveFields(h: string, u: string, n: string, m: string, p: string)
    requires ' ' !in h && ' ' !in u && ' ' !in n && ' ' !in m && ' ' !in p
    ensures Split(h + " " + (u + " " + (n + " " + (m + " " + p)))) == [h, u, n, m, p]
  {
    var t3 := m + " " + p;
    var t2 := n + " " + t3;
    var t1 := u + " " + t2;
    SplitAfterField(h, t1);
    SplitAfterField(u, t2);
    SplitAfterField(n, t3);
    SplitAfterField(m, p);
    SplitNoSpace(p);
  }

  /** The connection string is its five `keyword=value` fields joined by spaces. */
  lemma DatabaseURLJoinsFields(c: DbConfig)
    ensures DatabaseURL(c) == ("host=" + c.host) + " " + (("user=" + c.user) + " " + (("dbname=" + c.name)
                              + " " + (("sslmode=" + SslMode) + " " + ("password=" + c.password))))
  {
    assert " user=" == " " + "user=" && " dbname=" == " " + "dbname=";
    assert " sslmode=" == " " + "sslmode=" && " password=" == " " + "password=";
    JoinRegroup("host=", c.host, "user=", c.user, "dbname=", c.name, "sslmode=", SslMode,
                "password=", c.password, " ");
  }

  /** Reading a left-nested concatenation of keyword, value and separator
      pieces as fields joined by the separator. */
  lemma JoinRegroup(k0: string, v0: string, k1: string, v1: string, k2: string, v2: string,
                    k3: string, v3: string, k4: string, v4: string, sp: string)
    ensures k0 + v0 + (sp + k1) + v1 + (sp + k2) + v2 + (sp + k3) + v3 + (sp + k4) + v4
         == (k0 + v0) + sp + ((k1 + v1) + sp + ((k2 + v2) + sp + ((k3 + v3) + sp + (k4 + v4))))
  {
  }

  /** With space-free values, each of the five fields is space-free. */
  lemma DatabaseURLFieldsSpaceFree(c: DbConfig)
    requires SpaceFree(c)
    ensures ' ' !in "host=" + c.host && ' ' !in "user=" + c.user && ' ' !in "dbname=" + c.name
    ensures ' ' !in "sslmode=" + SslMode && ' ' !in "password=" + c.password
  {
  }

  /** The five fields of the connection string, as the space splitter sees them. */
  lemma SplitDatabaseURL(c: DbConfig)
    requires SpaceFree(c)
    ensures Split(DatabaseURL(c)) == ["host=" + c.host, "user=" + c.user, "dbname=" + c.name,
                                      "sslmode=" + SslMode, "password=" + c.password]
  {
    DatabaseURLJoinsFields(c);
    DatabaseURLFieldsSpaceFree(c);
    SplitFiveFields("host=" + c.host, "user=" + c.user, "dbname=" + c.name,
                    "sslmode=" + SslMode, "password=" + c.password);
  }

  /** Five `keyword=value` fields read back as their pairs. */
  lemma FieldsOfFivePairs(s: string, k: seq<string>, v: seq<string>)
    requires |k| == 5 && |v| == 5
    requires forall i :: 0 <= i < 5 ==> '=' !in k[i]
    requires Split(s) == seq(5, i requires 0 <= i < 5 => k[i] + "=" + v[i])
    ensures Fields(s) == seq(5, i requires 0 <= i < 5 => Some((k[i], v[i])))
  {
    forall i | 0 <= i < 5
      ensures KeyValue(k[i] + "=" + v[i]) == Some((k[i], v[i]))
    {
      KeyValueOfPair(k[i], v[i]);
    }
  }

  /** Read back, the connection string names host, user, database, the
      fixed `sslmode=disable` and the password, in that order, with the
      configured values, provided no value contains a space. */
  lemma DatabaseURLFields(c: DbConfig)
    requires SpaceFree(c)
    ensures Fields(DatabaseURL(c)) == [Some(("host", c.host)), Some(("user", c.user)),
                                       Some(("dbname", c.name)), Some(("sslmode", SslMode)),
                                       Some(("password", c.password))]
  {
    var k := ["host", "user", "dbname", "sslmode", "password"];
    var v := [c.host, c.user, c.name, SslMode, c.password];
    SplitDatabaseURL(c);
    assert "host=" == "host" + "=" && "user=" == "user" + "=" && "dbname=" == "dbname" + "=";
    assert "sslmode=" == "sslmode" + "=" && "password=" == "password" + "=";
    assert Split(DatabaseURL(c)) == seq(5, i requires 0 <= i < 5 => k[i] + "=" + v[i]);
    assert forall i :: 0 <= i < 5 ==> '=' !in k[i];
    FieldsOfFivePairs(DatabaseURL(c), k, v);
  }

  /** Values are not quoted, so a value containing spaces can imitate the
      fields after it: two different configurations give the same string. */
  lemma UnquotedValuesCollide(host: string, user: string, name: string, p: string, q: string)
    ensures DbConfig(host, user, name + " sslmode=disable password=" + p, q)
         != DbConfig(host, user, name, p + " sslmode=disable password=" + q)
    ensures DatabaseURL(DbConfig(host, user, name + " sslmode=disable password=" + p, q))
         == DatabaseURL(DbConfig(host, user, name, p + " sslmode=disable password=" + q))
  {
    var tail := " sslmode=disable password=";
    var c1 := DbConfig(host, user, name + tail + p, q);
    var c2 := DbConfig(host, user, name, p + tail + q);
    assert c1.name != c2.name by {
      assert |c1.name| > |c2.name|;
    }
    TailsMeet(host, user, name, tail, p, q);
  }

  /** The string equality behind `UnquotedValuesCollide`. */
  lemma TailsMeet(host: string, user: string, name: string, tail: string, p: string, q: string)
    requires tail == " sslmode=disable password="
    ensures DatabaseURL(DbConfig(host, user, name + tail + p, q))
         == DatabaseURL(DbConfig(host, user, name, p + tail + q))
  {
    var head := "host=" + host + " user=" + user + " dbname=";
    NameThenTail(DbConfig(host, user, name + tail + p, q), head, tail);
    NameThenTail(DbConfig(host, user, name, p + tail + q), head, tail);
    Regroup(head, name, tail, p, q);
  }

  /** `DatabaseURL` as everything before the name, the name, the fixed
      middle, and the password. */
  lemma NameThenTail(c: DbConfig, head: string, tail: string)
    requires head == "host=" + c.host + " user=" + c.user + " dbname="
    requires tail == " sslmode=disable password="
    ensures DatabaseURL(c) == head + c.name + tail + c.password
  {
    var x := head + c.name;
    assert DatabaseURL(c) == x + " sslmode=" + SslMode + " password=" + c.password;
    assert x + " sslmode=" + SslMode + " password=" == x + tail;
  }

  lemma Regroup(h: string, n: string, t: string, p: string, q: string)
    ensures h + (n + t + p) + t + q == h + n + t + (p + t + q)
  {
  }
}

=== FILE: current.dfy ===
/**
 The current handler (`function.go`): a SendGrid dynamic-template message
 whose `verificationLink` is built from a configured base URL, and a
 database row holding an expiry time two minutes after the send.
 */
module Current {
  import opened Common
  import Base64
  import Event
  import ConnInfo
  import opened Trace

  /** The environment the handler reads: the `DB_*` values,
      `VERIFICATION_URL` and `TEMPLATE_ID`. */
  datatype Env = Env(db: ConnInfo.DbConfig, verificationBase: string, templateId: string)

  /** The dynamic-template message handed to the mail client. */
  datatype TemplateMail = TemplateMail(from: Address, to: Address, templateId: string,
                                       verificationLink: string, contactLink: string)

  const Sender: Address := Address("Admin@rajadarsh.me", "no-reply@rajadarsh.me")
  const RecipientName: string := "Webapp User"
  const ContactLink: string := "mailto:support@rajadarsh.me"
  const TokenParam: string := "?token="

  /** `time.Second`, in nanoseconds. */
  const Second: int := 1_000_000_000
  /** How long after the send an issued token stays valid. */
  const ExpiryWindow: int := 120 * Second

  /** `verificationURL`: the base URL, `?token=`, the token; the token is
      not escaped and an empty base URL is used as it is. */
  function VerificationURL(base: string, token: string): (url: string)
    ensures |url| == |base| + |TokenParam| + |token|
    ensures url[..|base|] == base && url[|url| - |token|..] == token
    ensures url[|base|..|base| + |TokenParam|] == TokenParam
  {
    base + TokenParam + token
  }

  /** The token a verification link carries, if the link has the given base. */
  function TokenOf(url: string, base: string): Option<string>
  {
    var prefix := base + TokenParam;
    if |prefix| <= |url| && url[..|prefix|] == prefix then Some(url[|prefix|..]) else None
  }

  /** The token comes back out of the link built for it. */
  lemma TokenOfVerificationURL(base: string, token: string)
    ensures TokenOf(VerificationURL(base, token), base) == Some(token)
  {
  }

  /** Every link with the base is the link built for the token it carries,
      so distinct tokens get distinct links. */
  lemma VerificationURLOfToken(url: string, base: string, token: string)
    requires TokenOf(url, base) == Some(token)
    ensures VerificationURL(base, token) == url
  {
  }

  /** The message `sendEmail` builds for a recipient and a token. */
  function Mail(env: Env, email: string, token: string): (m: TemplateMail)
    ensures m.to.address == email && m.from == Sender
    ensures TokenOf(m.verificationLink, env.verificationBase) == Some(token)
    ensures m.contactLink == ContactLink && m.templateId == env.templateId
  {
    TokenOfVerificationURL(env.verificationBase, token);
    TemplateMail(Sender, Address(RecipientName, email), env.templateId,
                 VerificationURL(env.verificationBase, token), ContactLink)
  }

  /** `sendEmail`: open the database, send, and only after a successful send
      insert the row; the connection is closed on every return after a
      successful open. */
  function SendEmail(email: string, token: string, env: Env, w: World): (r: Run<TemplateMail>)
    ensures r.err.None? <==> w.openOk && w.sendOk && w.insertOk
    ensures r.err == Some(OpenError) <==> !w.openOk
    ensures r.err == Some(SendError) <==> w.openOk && !w.sendOk
    ensures r.err == Some(InsertError) <==> w.openOk && w.sendOk && !w.insertOk
    ensures |r.trace| > 0 && r.trace[0] == Open(ConnInfo.DatabaseURL(env.db), w.openOk)
    ensures WellOrdered(r.trace)
    ensures !w.openOk ==> NoSend(r.trace) && NoInsert(r.trace)
    ensures w.openOk ==> |r.trace| >= 3 && r.trace[1] == Send(email, Mail(env, email, token), w.sendOk)
    ensures !w.sendOk ==> NoInsert(r.trace)
    ensures w.openOk && w.sendOk ==> |r.trace| == 4 && r.trace[2] == Insert(email, token, w.now + ExpiryWindow, w.insertOk)
    ensures Shape(r.trace) == Outline(email, token, w)
  {
    var connect := Open(ConnInfo.DatabaseURL(env.db), w.openOk);
    if !w.openOk then
      FailedOpenTrace<TemplateMail>(connect.dsn);
      Run(Some(OpenError), [connect])
    else
      var sent := Send(email, Mail(env, email, token), w.sendOk);
      if !w.sendOk then
        FailedSendTrace(connect.dsn, email, sent.mail);
        Run(Some(SendError), [connect, sent, Close])
      else
        var inserted := Insert(email, token, w.now + ExpiryWindow, w.insertOk);
        assert [connect, sent, inserted, Close][1] == sent;
        assert [connect, sent, inserted, Close][2] == inserted;
        FullTrace(connect.dsn, email, sent.mail, token, inserted.at, w.insertOk);
        Run(if w.insertOk then None else Some(InsertError), [connect, sent, inserted, Close])
  }

  /** `SendVerificationEmail`: read the event metadata, decode the payload,
      then `sendEmail` with whatever email and token were decoded. */
  function SendVerificationEmail(data: seq<byte>, parse: Event.Parser, env: Env, w: World)
    : (r: Run<TemplateMail>)
    ensures r.err.None? <==>
      w.metadataOk && Event.Decode(data, parse).Some? && w.openOk && w.sendOk && w.insertOk
    ensures !w.metadataOk ==> r.err == Some(MetadataError)
    ensures w.metadataOk && Event.Decode(data, parse).None? ==> r.err == Some(DecodeError)
    ensures r.trace == [] <==> !w.metadataOk || Event.Decode(data, parse).None?
    ensures WellOrdered(r.trace)
    ensures forall i :: 0 <= i < |r.trace| && r.trace[i].Insert? ==>
      && Event.Decode(data, parse) == Some(Event.Message(r.trace[i].email, r.trace[i].token))
      && r.trace[i].at == w.now + ExpiryWindow
  {
    if !w.metadataOk then
      Run(Some(MetadataError), [])
    else
      match Event.Decode(data, parse)
      case None => Run(Some(DecodeError), [])
      case Some(m) => SendEmail(m.email, m.token, env, w)
  }

  /** Once the connection is open, the decoded request is mailed as it
      is: to the decoded address, with the link for the decoded token and
      the fixed contact link, even when either string is empty. */
  lemma DecodedRequestIsSent(data: seq<byte>, parse: Event.Parser, env: Env, w: World, m: Event.Message)
    requires w.metadataOk && w.openOk
    requires Event.Decode(data, parse) == Some(m)
    ensures var t := SendVerificationEmail(data, parse, env, w).trace;
      && t[1].Send? && t[1].ok == w.sendOk
      && t[1].to == m.email && t[1].mail.to.address == m.email
      && t[1].mail.verificationLink == VerificationURL(env.verificationBase, m.token)
      && t[1].mail.contactLink == ContactLink
  {
  }

  /** A failed send leaves no row behind; a successful one leaves exactly
      one, for the decoded email and token, expiring two minutes after the
      send, and the run succeeds exactly when that insert does. */
  lemma RecordFollowsSend(data: seq<byte>, parse: Event.Parser, env: Env, w: World, m: Event.Message)
    requires w.metadataOk && w.openOk
    requires Event.Decode(data, parse) == Some(m)
    ensures var r := SendVerificationEmail(data, parse, env, w);
      && (!w.sendOk ==> r.err == Some(SendError) && NoInsert(r.trace))
      && (w.sendOk ==> (exists i :: 0 <= i < |r.trace|
                          && r.trace[i] == Insert(m.email, m.token, w.now + ExpiryWindow, w.insertOk))
                       && AtMostOneInsert(r.trace)
                       && (r.err.None? <==> w.insertOk))
  {
  }

  /** A failed insert is reported as an error although the email has
      already gone out: the token is sent but not recorded. */
  lemma SentButUnrecorded(data: seq<byte>, parse: Event.Parser, env: Env, w: World)
    requires w.metadataOk && Event.Decode(data, parse).Some?
    requires w.openOk && w.sendOk && !w.insertOk
    ensures var r := SendVerificationEmail(data, parse, env, w);
      && r.err == Some(InsertError)
      && exists j :: 0 <= j < |r.trace| && r.trace[j].Send? && r.trace[j].ok
  {
  }

  /** When every call succeeds, `sendEmail` opens, sends, inserts the row
      expiring two minutes after the send, closes, and returns nil. */
  lemma SendEmailSucceeds(email: string, token: string, env: Env, w: World)
    requires w.openOk && w.sendOk && w.insertOk
    ensures SendEmail(email, token, env, w)
         == Run(None, [Open(ConnInfo.DatabaseURL(env.db), true),
                       Send(email, Mail(env, email, token), true),
                       Insert(email, token, w.now + ExpiryWindow, true),
                       Close])
  {
  }

  /** A JSON request published base64-encoded is mailed to its address with
      the link for its token, then recorded with an expiry two minutes
      later, and the invocation succeeds. */
  lemma EncodedEventEndToEnd(json: seq<byte>, parse: Event.Parser, env: Env, w: World,
                             email: string, token: string)
    requires OpenBrace in json && parse(json) == Some(Event.Message(email, token))
    requires w.metadataOk && w.openOk && w.sendOk && w.insertOk
    ensures SendVerificationEmail(Base64.Encode(json), parse, env, w)
         == Run(None, [Open(ConnInfo.DatabaseURL(env.db), true),
                       Send(email, Mail(env, email, token), true),
                       Insert(email, token, w.now + ExpiryWindow, true),
                       Close])
  {
    Event.WrappedAndRawAgree(json, parse);
    SendEmailSucceeds(email, token, env, w);
  }

  /** A payload the JSON decoder rejects, raw or base64-encoded, ends the
      invocation before the database or the mail client is touched. */
  lemma RejectedPayloadTouchesNothing(json: seq<byte>, parse: Event.Parser, env: Env, w: World)
    requires OpenBrace in json && parse(json).None? && w.metadataOk
    ensures SendVerificationEmail(json, parse, env, w) == Run(Some(DecodeError), [])
    ensures SendVerificationEmail(Base64.Encode(json), parse, env, w) == Run(Some(DecodeError), [])
  {
    Event.WrappedAndRawAgree(json, parse);
  }
}

=== FILE: event.dfy ===
/**
 Turning a Pub/Sub payload into a verification request: the payload bytes
 are base64-decoded when they are valid base64 and taken as they are
 otherwise, then handed to the JSON decoder.
 */
module Event {
  import opened Common
  import Base64

  /** The `VerificationMessage` the JSON decoder fills in. A field missing
      from the JSON object stays the empty string. */
  datatype Message = Message(email: string, token: string)

  /** `json.Unmarshal` into a `VerificationMessage`, left uninterpreted:
      `None` stands for its error return. */
  type Parser = seq<byte> -> Option<Message>

  /** The bytes handed to the JSON decoder: the base64 decoding of the
      payload when it has one, the payload unchanged when it does not. */
  function Unwrap(data: seq<byte>): (r: seq<byte>)
    ensures Base64.IsValid(data) ==> Base64.DecodeString(data) == Some(r)
    ensures !Base64.IsValid(data) ==> r == data
  {
    match Base64.DecodeString(data)
    case Some(decoded) => decoded
    case None => data
  }

  /** The decode step of `SendVerificationEmail`. */
  function Decode(data: seq<byte>, parse: Parser): (r: Option<Message>)
    ensures Base64.IsValid(data) ==> r == parse(Base64.DecodeString(data).value)
    ensures !Base64.IsValid(data) ==> r == parse(data)
    ensures OpenBrace in data ==> r == parse(data)
  {
    parse(Unwrap(data))
  }

  /** A payload that was base64-encoded by the publisher reaches the JSON
      decoder exactly as it was before encoding. */
  lemma EncodedPayloadIsUnwrapped(json: seq<byte>)
    ensures Unwrap(Base64.Encode(json)) == json
  {
    Base64.DecodeEncode(json);
  }

  /** A payload holding a `{`, as every raw JSON object does, is never valid
      base64 and reaches the JSON decoder unchanged. */
  lemma RawJsonIsKept(data: seq<byte>)
    requires OpenBrace in data
    ensures Unwrap(data) == data
  {
  }

  /** A JSON object yields the same request whether it is published raw or
      base64-encoded. */
  lemma WrappedAndRawAgree(json: seq<byte>, parse: Parser)
    requires OpenBrace in json
    ensures Decode(Base64.Encode(json), parse) == Decode(json, parse)
    ensures Decode(json, parse) == parse(json)
  {
    EncodedPayloadIsUnwrapped(json);
    RawJsonIsKept(json);
  }

  /** A raw payload made only of base64 letters in whole quanta (the four
      bytes `null`, which `json.Unmarshal` would accept, for one) is decoded
      rather than kept: the JSON decoder sees fewer bytes than were sent. */
  lemma LetterOnlyPayloadIsDecoded(data: seq<byte>)
    requires |data| > 0 && |data| % 4 == 0
    requires forall i :: 0 <= i < |data| ==> Base64.IsAlphabet(data[i])
    ensures Base64.IsValid(data)
    ensures |Unwrap(data)| < |data|
  {
  }
}

=== FILE: legacy.dfy ===
/**
 The older handler (`main.go`): a single message with inline plain-text
 and HTML bodies linking to a fixed verification address, and a database
 row holding the send time rather than an expiry.
 */
module Legacy {
  import opened Common
  import Event
  import ConnInfo
  import opened Trace
  import Current

  /** `mail.NewSingleEmail`: sender, subject, recipient and both bodies. */
  datatype SingleMail = SingleMail(from: Address, subject: string, to: Address,
                                   plainText: string, html: string)

  const Sender: Address := Address("Example User", "adarshrajneu@gmail.com")
  const RecipientName: string := "Example User"
  const Subject: string := "Verify Your Email Address"
  /** The verification endpoint, fixed in the code. */
  const BaseURL: string := "https://rajadarsh.me/verify"
  /** The sentence both bodies start with. */
  const Lead: string := "Please verify your email address by clicking on the link: "
  const AnchorOpen: string := "<a href=\""
  const AnchorMiddle: string := "\">"
  const AnchorClose: string := "</a>"

  /** `sub` occurs in `s` starting at index `at`. */
  predicate Occurs(s: string, sub: string, at: int) {
    0 <= at && at + |sub| <= |s| && s[at..at + |sub|] == sub
  }

  /** `verificationURL`: the fixed endpoint with the token as its query. */
  function VerificationURL(token: string): (url: string)
    ensures Current.TokenOf(url, BaseURL) == Some(token)
  {
    var url := "https://rajadarsh.me/verify?token=" + token;
    assert url == Current.VerificationURL(BaseURL, token);
    Current.TokenOfVerificationURL(BaseURL, token);
    url
  }

  /** The older link is the current one with its base URL fixed to the
      endpoint that the current code keeps only as a commented-out default. */
  lemma FixedBaseURL(token: string)
    ensures VerificationURL(token) == Current.VerificationURL(BaseURL, token)
  {
  }

  /** The plain-text body: the lead sentence, then the link. */
  function PlainText(token: string): (body: string)
    ensures Occurs(body, Lead, 0)
    ensures Occurs(body, VerificationURL(token), |Lead|) && |body| == |Lead| + |VerificationURL(token)|
  {
    Lead + VerificationURL(token)
  }

  /** The HTML body: the lead sentence, then an anchor whose target and
      whose text are both the link. */
  function Html(token: string): (body: string)
    ensures var url := VerificationURL(token);
      && Occurs(body, Lead, 0)
      && Occurs(body, AnchorOpen, |Lead|)
      && Occurs(body, url, |Lead| + |AnchorOpen|)
      && Occurs(body, AnchorMiddle, |Lead| + |AnchorOpen| + |url|)
      && Occurs(body, url, |Lead| + |AnchorOpen| + |url| + |AnchorMiddle|)
      && Occurs(body, AnchorClose, |Lead| + |AnchorOpen| + 2 * |url| + |AnchorMiddle|)
      && |body| == |Lead| + |AnchorOpen| + 2 * |url| + |AnchorMiddle| + |AnchorClose|
  {
    var url := VerificationURL(token);
    var body := Lead + AnchorOpen + url + AnchorMiddle + url + AnchorClose;
    assert body[|Lead| + |AnchorOpen|..][..|url|] == url;
    body
  }

  /** The anchor target read back from the HTML body, up to the first `"`
      after `<a href="`. */
  function Href(html: string): Option<string>
  {
    var prefix := Lead + AnchorOpen;
    if |prefix| <= |html| && html[..|prefix|] == prefix then
      match SplitAt(html[|prefix|..], '"')
      case Some(parts) => Some(parts.0)
      case None => None
    else None
  }

  /** The link itself holds no `"` unless the token does. */
  lemma NoQuoteInLink(token: string)
    requires '"' !in token
    ensures '"' !in VerificationURL(token)
  {
  }

  /** The HTML body, cut after `<a href="`, starts with the link and a `"`. */
  lemma HtmlAfterAnchorOpen(token: string)
    ensures var url := VerificationURL(token);
      && Html(token)[..|Lead + AnchorOpen|] == Lead + AnchorOpen
      && Html(token)[|Lead + AnchorOpen|..] == url + ['"'] + (">" + url + AnchorClose)
  {
  }

  /** A browser following the anchor reaches the link for the token, as
      long as the token holds no `"` (it is not escaped). */
  lemma HrefCarriesToken(token: string)
    requires '"' !in token
    ensures Href(Html(token)) == Some(VerificationURL(token))
  {
    var url := VerificationURL(token);
    NoQuoteInLink(token);
    HtmlAfterAnchorOpen(token);
    SplitAtFirst(url, ">" + url + AnchorClose, '"');
  }

  /** The message `sendEmail` builds for a recipient and a token. */
  function Mail(email: string, token: string): (m: SingleMail)
    ensures m.to.address == email && m.from == Sender && m.subject == Subject
    ensures Occurs(m.plainText, VerificationURL(token), |Lead|)
    ensures Occurs(m.html, VerificationURL(token), |Lead| + |AnchorOpen|)
  {
    SingleMail(Sender, Subject, Address(RecipientName, email), PlainText(token), Html(token))
  }

  /** `sendEmail`: open the database, send, and only after a successful
      send insert the row stamped with the current time. */
  function SendEmail(email: string, token: string, db: ConnInfo.DbConfig, w: World): (r: Run<SingleMail>)
    ensures r.err.None? <==> w.openOk && w.sendOk && w.insertOk
    ensures r.err == Some(OpenError) <==> !w.openOk
    ensures r.err == Some(SendError) <==> w.openOk && !w.sendOk
    ensures r.err == Some(InsertError) <==> w.openOk && w.sendOk && !w.insertOk
    ensures |r.trace| > 0 && r.trace[0] == Open(ConnInfo.DatabaseURL(db), w.openOk)
    ensures WellOrdered(r.trace)
    ensures !w.openOk ==> NoSend(r.trace) && NoInsert(r.trace)
    ensures w.openOk ==> |r.trace| >= 3 && r.trace[1] == Send(email, Mail(email, token), w.sendOk)
    ensures !w.sendOk ==> NoInsert(r.trace)
    ensures w.openOk && w.sendOk ==> |r.trace| == 4 && r.trace[2] == Insert(email, token, w.now, w.insertOk)
    ensures Shape(r.trace) == Outline(email, token, w)
  {
    var connect := Open(ConnInfo.DatabaseURL(db), w.openOk);
    if !w.openOk then
      FailedOpenTrace<SingleMail>(connect.dsn);
      Run(Some(OpenError), [connect])
    else
      var sent := Send(email, Mail(email, token), w.sendOk);
      if !w.sendOk then
        FailedSendTrace(connect.dsn, email, sent.mail);
        Run(Some(SendError), [connect, sent, Close])
      else
        var inserted := Insert(email, token, w.now, w.insertOk);
        assert [connect, sent, inserted, Close][1] == sent;
        assert [connect, sent, inserted, Close][2] == inserted;
        FullTrace(connect.dsn, email, sent.mail, token, inserted.at, w.insertOk);
        Run(if w.insertOk then None else Some(InsertError), [connect, sent, inserted, Close])
  }

  /** `SendVerificationEmail`: read the event metadata, decode the payload,
      then `sendEmail` with whatever email and token were decoded. */
  function SendVerificationEmail(data: seq<byte>, parse: Event.Parser, db: ConnInfo.DbConfig, w: World)
    : (r: Run<SingleMail>)
    ensures r.err.None? <==>
      w.metadataOk && Event.Decode(data, parse).Some? && w.openOk && w.sendOk && w.insertOk
    ensures !w.metadataOk ==> r.err == Some(MetadataError)
    ensures w.metadataOk && Event.Decode(data, parse).None? ==> r.err == Some(DecodeError)
    ensures r.trace == [] <==> !w.metadataOk || Event.Decode(data, parse).None?
    ensures WellOrdered(r.trace)
    ensures forall i :: 0 <= i < |r.trace| && r.trace[i].Insert? ==>
      && Event.Decode(data, parse) == Some(Event.Message(r.trace[i].email, r.trace[i].token))
      && r.trace[i].at == w.now
  {
    if !w.metadataOk then
      Run(Some(MetadataError), [])
    else
      match Event.Decode(data, parse)
      case None => Run(Some(DecodeError), [])
      case Some(m) => SendEmail(m.email, m.token, db, w)
  }

  /** The connection string handed to `sql.Open` reads back as host, user,
      database, `sslmode=disable` and password, in that order. */
  lemma ConnectionStringFields(email: string, token: string, db: ConnInfo.DbConfig, w: World)
    requires ConnInfo.SpaceFree(db)
    ensures ConnInfo.Fields(SendEmail(email, token, db, w).trace[0].dsn)
         == [Some(("host", db.host)), Some(("user", db.user)), Some(("dbname", db.name)),
             Some(("sslmode", "disable")), Some(("password", db.password))]
  {
    ConnInfo.DatabaseURLFields(db);
  }

  /** Both variants make the same calls in the same order with the same
      outcomes and return the same error; they differ only in the message
      and in the timestamp stored. */
  lemma SameOrchestrationAsCurrent(data: seq<byte>, parse: Event.Parser, env: Current.Env, w: World)
    ensures var older := SendVerificationEmail(data, parse, env.db, w);
            var newer := Current.SendVerificationEmail(data, parse, env, w);
      older.err == newer.err && Shape(older.trace) == Shape(newer.trace)
  {
  }

  /** With every call succeeding, the row records the send time itself,
      where the current variant records a time two minutes later. */
  lemma RecordsSendTime(data: seq<byte>, parse: Event.Parser, env: Current.Env, w: World, m: Event.Message)
    requires w.metadataOk && w.openOk && w.sendOk && w.insertOk
    requires Event.Decode(data, parse) == Some(m)
    ensures SendVerificationEmail(data, parse, env.db, w).trace[2] == Insert(m.email, m.token, w.now, true)
    ensures Current.SendVerificationEmail(data, parse, env, w).trace[2]
         == Insert(m.email, m.token, w.now + Current.ExpiryWindow, true)
  {
    assert SendVerificationEmail(data, parse, env.db, w) == SendEmail(m.email, m.token, env.db, w);
    assert Current.SendVerificationEmail(data, parse, env, w) == Current.SendEmail(m.email, m.token, env, w);
  }
}

=== FILE: trace.dfy ===
/**
 The vocabulary shared by both variants of the handler: the outcomes of
 the calls the handler makes into code it does not own, the effects it
 has on the outside world, and properties of a sequence of such effects.
 */
module Trace {
  import opened Common

  /** Which step produced the `error` the handler returns. */
  datatype Error = MetadataError | DecodeError | OpenError | SendError | InsertError

  /** `mail.NewEmail(name, address)`. */
  datatype Address = Address(name: string, address: string)

  /** One call into the outside world, in the order it was made, with the
      outcome it had. `Open` is `sql.Open` with the connection string,
      `Send` is the mail client's `Send` with the message `mail` for the
      recipient address `to`, `Insert` is the one-row `db.Exec`, `Close` is
      the deferred `db.Close`. */
  datatype Effect<M> =
    | Open(dsn: string, ok: bool)
    | Send(to: string, mail: M, ok: bool)
    | Insert(email: string, token: string, at: int, ok: bool)
    | Close

  /** What one invocation returns (`None` is a nil error) and what it did. */
  datatype Run<M> = Run(err: Option<Error>, trace: seq<Effect<M>>)

  /** The outcomes of everything the handler cannot compute itself:
      whether `metadata.FromContext`, `sql.Open`, the mail client's `Send`
      and `db.Exec` returned a nil error, and the clock read after the send
      (`now`, in nanoseconds). `sendOk` is only that `Send` returned no
      error: the HTTP status of the provider's response is never examined. */
  datatype World = World(metadataOk: bool, openOk: bool, sendOk: bool, insertOk: bool, now: int)

  /** Every insert comes after a send to the same address that succeeded. */
  ghost predicate InsertOnlyAfterSend<M>(t: seq<Effect<M>>) {
    forall i :: 0 <= i < |t| && t[i].Insert? ==>
      exists j :: 0 <= j < i && t[j].Send? && t[j].ok && t[j].to == t[i].email
  }

  /** No two inserts. */
  ghost predicate AtMostOneInsert<M>(t: seq<Effect<M>>) {
    forall i, j :: 0 <= i < j < |t| && t[i].Insert? ==> !t[j].Insert?
  }

  ghost predicate NoInsert<M>(t: seq<Effect<M>>) {
    forall i :: 0 <= i < |t| ==> !t[i].Insert?
  }

  ghost predicate NoSend<M>(t: seq<Effect<M>>) {
    forall i :: 0 <= i < |t| ==> !t[i].Send?
  }

  /** The connection discipline: a non-empty trace opens the database first
      and nowhere else, ends right there when the open failed, and
      otherwise closes it last; everything in between happens on the open
      connection. */
  ghost predicate Scoped<M>(t: seq<Effect<M>>) {
    |t| > 0 ==>
      && t[0].Open?
      && (!t[0].ok ==> |t| == 1)
      && (t[0].ok <==> t[|t| - 1].Close?)
      && (forall i :: 0 < i < |t| ==> !t[i].Open?)
      && (forall i :: 0 <= i < |t| - 1 ==> !t[i].Close?)
  }

  /** All of the above. */
  ghost predicate WellOrdered<M>(t: seq<Effect<M>>) {
    InsertOnlyAfterSend(t) && AtMostOneInsert(t) && Scoped(t)
  }

  /** An effect with the message and the timestamp forgotten. */
  datatype Step = OpenStep(ok: bool) | SendStep(to: string, ok: bool)
                | InsertStep(email: string, token: string, ok: bool) | CloseStep

  function StepOf<M>(e: Effect<M>): Step {
    match e
    case Open(_, ok) => OpenStep(ok)
    case Send(to, _, ok) => SendStep(to, ok)
    case Insert(email, token, _, ok) => InsertStep(email, token, ok)
    case Close => CloseStep
  }

  /** The order of calls and their outcomes, whatever message was sent and
      whatever timestamp was stored. */
  function Shape<M>(t: seq<Effect<M>>): (s: seq<Step>)
    ensures |s| == |t|
    ensures forall i :: 0 <= i < |t| ==> (s[i].InsertStep? <==> t[i].Insert?)
  {
    seq(|t|, i requires 0 <= i < |t| => StepOf(t[i]))
  }

  /** The calls `sendEmail` makes and their outcomes, as the world
      decides them: the open; after a successful open, the send and finally
      the close; between them, after a successful send, the insert for the
      recipient. */
  function Outline(to: string, token: string, w: World): seq<Step> {
    if !w.openOk then [OpenStep(false)]
    else if !w.sendOk then [OpenStep(true), SendStep(to, false), CloseStep]
    else [OpenStep(true), SendStep(to, true), InsertStep(to, token, w.insertOk), CloseStep]
  }

  /** A failed open ends the run at once. */
  lemma FailedOpenTrace<M>(dsn: string)
    ensures var t: seq<Effect<M>> := [Open(dsn, false)];
      WellOrdered(t) && NoSend(t) && NoInsert(t) && Shape(t) == [OpenStep(false)]
  {
  }

  /** A failed send closes the connection without an insert. */
  lemma FailedSendTrace<M>(dsn: string, to: string, mail: M)
    ensures var t := [Open(dsn, true), Send(to, mail, false), Close];
      WellOrdered(t) && NoInsert(t) && Shape(t) == [OpenStep(true), SendStep(to, false), CloseStep]
  {
  }

  /** A successful send to the recipient, its insert, then the close. */
  lemma FullTrace<M>(dsn: string, to: string, mail: M, token: string, at: int, ok: bool)
    ensures var t := [Open(dsn, true), Send(to, mail, true), Insert(to, token, at, ok), Close];
      WellOrdered(t) && Shape(t) == [OpenStep(true), SendStep(to, true), InsertStep(to, token, ok), CloseStep]
  {
    var t := [Open(dsn, true), Send(to, mail, true), Insert(to, token, at, ok), Close];
    assert t[1].Send? && t[1].ok && t[1].to == t[2].email;
  }
}
